=== FILE: README.md ===
# Accessible tab group: a verified model

This project models the tab-group widget of `react-accessible-tabs`. The widget is the
`Tabs` component with its `Tab` buttons and `TabPanel` regions. Its only state is one
integer, `activeTab`, which is 0 on mount. The tab list's `onKeyDown` handler changes it
for four keys:

- ArrowRight moves forward and wraps from the last tab to the first.
- ArrowLeft moves back and wraps from the first tab to the last.
- Home goes to the first tab and End to the last.

Every other key is ignored and keeps its default action. A click on a tab makes that tab
active. From `activeTab` the component derives, per item:

- the tab's `aria-selected` and its roving `tabIndex`;
- the panel's `hidden` flag;
- the id cross-references between the tab and its panel. The tab's id is the title, used
  verbatim. The panel's id is the title followed by `-tab`.

Each tab runs a focus effect once on mount, which focuses tab 0 as the page loads, and
after every commit in which its `selected` flag changed.

Modules:

- `Keys` (keys.dfy) classifies the event's `key` string.
- `TabController` (controller.dfy) holds the keyboard and click transitions, runs of
  events from mount, and the arithmetic of the wrap-around.
- `TabView` (view.dfy) renders the tab and panel attributes. It proves the "one active
  tab, one visible panel, same index" invariant and the id properties.
- `Focus` (focus.dfy) abstracts the focus effect.
- `Widget` (widget.dfy) composes the controller and the view.

The transition functions keep the handler's own arithmetic. It uses no modulus and has no
guard against an empty item list. The equality with `(i + 1) mod n` and
`(i - 1 + n) mod n` is proved in the handler's contract, for `n >= 1` and an in-range index. With no
items the handler leaves the range (ArrowRight from 0 gives 1, End gives -1), so every
range result assumes `n >= 1`.

Notes on the code:

- Ids are the title verbatim, whitespace included.
- The panel refers back to its tab through `aria-labelledby`.
- The focus effect fires on clicks as well as keys, whenever `selected` changes.
- `aria-labelledby` and `aria-controls` are ID-reference lists, split on ASCII
  whitespace. A title with a space names several ids. The demo's "Nils Frahm" names "Nils"
  and "Frahm". So the references resolve to the partner only for single-token titles.
  `TabView.IdRefs` models the split, and `TabView.SpacedTitlesMisresolve` shows a
  collision-free title list whose panel points at the wrong tab.
- Ids can also collide between a tab and a panel. The titles "a" and "a-tab" give two
  elements the same id (`TabView.DistinctTitlesCanCollide`).

## Model

| member | source | states |
|---|---|---|
| Keys.KeyOf | src/App.js:50-68 | A `key` string is one of the four handled keys exactly when it is "ArrowRight", "ArrowLeft", "Home" or "End"; every other string is an ignored key carrying that same string |
| Keys.KeyOfNameOf | src/App.js:50-68 | Classification is lossless: every key a real event can carry is recovered from its `key` string |
| TabController.OnKeyDown | src/App.js:48-72 | `preventDefault` is called exactly for the four handled keys; an ignored key leaves `activeTab` unchanged; for `0 <= i < n`, ArrowRight yields `(i + 1) mod n` (wrapping from last to first) and ArrowLeft yields `(i - 1 + n) mod n` (wrapping from first to last); with at least one tab, every key keeps an in-range index in range, and Home/End give an in-range index from anywhere |
| TabController.HomeEndIgnoreCurrent | src/App.js:59-66 | Home yields 0 and End yields `n - 1` whatever the current index, and both prevent the default action |
| TabController.ArrowKeysAreInverse | src/App.js:51-58 | On in-range indices ArrowLeft undoes ArrowRight and ArrowRight undoes ArrowLeft |
| TabController.ArrowRightPressesCycle | src/App.js:51-54 | `k` presses of ArrowRight from `i` land on `(i + k) mod n` |
| TabController.ArrowLeftPressesCycle | src/App.js:55-58 | `k` presses of ArrowLeft from `i` land on `(i - k) mod n` |
| TabController.PressesIsRun | src/App.js:48-72 | `k` presses of one key are the same as a run of `k` key-down events of that key |
| TabController.EveryTabReachable | src/App.js:47-54 | Every tab index is reached from the mounted state by a run of that many ArrowRight key-down events |
| TabController.Apply | src/App.js:47-83 | A click never prevents the default action; with at least one tab, a key or a click on a rendered tab keeps `activeTab` in range |
| TabController.ClickActivates | src/App.js:20 | A click on tab `i` sets `activeTab` to `i` whatever the prior state; clicking the active tab leaves the state unchanged |
| TabController.RunFromStaysInRange | src/App.js:47-83 | With at least one tab, any sequence of keys and clicks on rendered tabs keeps `0 <= activeTab < n` from any valid start |
| TabController.RunStaysInRange | src/App.js:47-83 | The invariant `0 <= activeTab < n` holds in every state reachable from mount (`activeTab = 0`) |
| TabController.EmptyGroupEscapesRange | src/App.js:53-65 | With no items, ArrowRight from 0 gives 1 and End gives -1, both outside the index range |
| TabView.TabOf | src/App.js:12-25 | A tab has role "tab", type "button" and its title as id. It is `aria-selected` and in the sequential focus order exactly when selected; otherwise `tabIndex` is -1. Its `aria-controls` is the id of the panel with the same title, and that panel's `aria-labelledby` is the tab's id |
| TabView.PanelOf | src/App.js:34-44 | A panel has role "tabpanel" and the title followed by "-tab" as id, and is labelled by the title. It is visible exactly when selected. Every panel carries `tabIndex` 0, but `hidden` takes a panel out of the focus order, so a panel is a tab stop exactly when selected |
| TabView.RenderTabs | src/App.js:77-87 | One tab button is rendered per item |
| TabView.RenderPanels | src/App.js:89-93 | One panel is rendered per item |
| TabView.ActiveIndexAgrees | src/App.js:16-90 | For every index: the tab is selected, iff the tab is in the tab order (`tabIndex` undefined rather than -1), iff the panel is not hidden, iff the index is `activeTab` |
| TabView.ExactlyOneActive | src/App.js:16-90 | With `activeTab` in range, exactly one tab is in the tab order, exactly one is selected and exactly one panel is visible; out of range, none is |
| TabView.OneTabStopPanel | src/App.js:34-44 | Only the visible panel is a tab stop: with `activeTab` in range exactly one panel is, the active one, and out of range none is; sequential navigation from the active tab enters its own panel and skips the hidden ones |
| TabView.TabAndPanelReferenceEachOther | src/App.js:17-90 | As attribute strings, each tab's `aria-controls` equals its panel's id, and each panel's `aria-labelledby` equals its tab's id |
| TabView.IdsUniqueIffCollisionFree | src/App.js:17-90 | All rendered ids are distinct exactly when the titles are pairwise distinct and no title is another title followed by "-tab" |
| TabView.CollisionFreeIdsUnique | src/App.js:17-90 | If the titles are pairwise distinct and none is another followed by "-tab", every tab and panel id is distinct |
| TabView.UniqueIdsCollisionFree | src/App.js:17-90 | If every tab and panel id is distinct, the titles are pairwise distinct and none is another followed by "-tab" |
| TabView.IdRefsSpell | src/App.js:17-39 | Read as an ID-reference list, an attribute loses nothing but whitespace: its ids, written one after another, spell the attribute with its whitespace removed, and each id is non-empty and whitespace-free |
| TabView.ReferencesResolveUniquely | src/App.js:17-90 | With collision-free titles that are each a single whitespace-free token, panel `i`'s `aria-labelledby`, read as an ID-reference list, is the one id of tab `i` and names no other tab or panel. Likewise tab `i`'s `aria-controls` is the one id of panel `i` and names no other panel or tab |
| TabView.IdRefsOfToken | src/App.js:82-90 | A non-empty, whitespace-free title used as a reference list names exactly itself |
| TabView.SpacedWordsNameTwoIds | src/App.js:82-90 | A title of two words separated by a space, used as a reference list, names the two words as separate ids and not the title |
| TabView.SpacedTitlesMisresolve | src/App.js:82-90 | The collision-free titles "a b" and "a" make panel 0's `aria-labelledby` name the ids "a" and "b". It then points at tab 1 and not at tab 0 |
| TabView.DemoTitlesNameTwoIds | src/App.js:82-90 | The demo titles "Nils Frahm" and "Agnes Obel", used as reference lists, each name two ids and not the title |
| TabView.DemoPanelsLabelledByNoTab | src/App.js:82-126 | In the demo ("Nils Frahm", "Agnes Obel", "Joke"), the `aria-labelledby` of the first two panels names none of the three tab ids, so those panels are labelled by no tab |
| TabView.DistinctTitlesCanCollide | src/App.js:17-90 | The distinct titles "a" and "a-tab" produce a tab and a panel with the same id |
| Focus.EffectRunsOnChangedTabs | src/App.js:6-10 | Between two renders the `[selected]` effect re-runs on no tab when the active index stayed. Otherwise it re-runs on exactly the previously active and the newly active tab, among those rendered |
| Focus.FocusTargets | src/App.js:6-10 | The effects focus only rendered tabs |
| Focus.FocusFollowsActivation | src/App.js:6-10 | After a commit the effects focus the active tab exactly when it became active in that commit (or on mount) and is rendered; otherwise they focus nothing |
| Focus.EventFocus | src/App.js:6-10 | After any event from a valid state, focus moves to the new active tab if `activeTab` changed and does not move otherwise, so clicking the active tab moves no focus |
| Widget.ReachableStatesShowOneTab | src/App.js:46-93 | In every state reachable from mount, exactly one tab is in the tab order, exactly one tab is selected, exactly one panel is visible and exactly one panel is a tab stop, all at the active index |
| Widget.FourTabScenario | src/App.js:46-93 | With four tabs: End from the start selects the last tab and shows only its panel; ArrowRight then wraps to the first; Home from the third goes to the first; ArrowLeft from the first wraps to the last; a click on the third tab selects it |

## Left out

- React's hooks machinery (`useState`, `useCallback` memoisation, `useRef`). The state is
  a plain integer and the transitions are pure functions. Events are applied one at a
  time, each reading the previous result. That is what the memoised handler, with
  `activeTab` among its dependencies, does.
- The focus effect's DOM side. `ref.current` is taken to be set after every commit, and
  the post-commit timing is abstracted to "after the commit that changed `selected`".
- Rendering of children, the `TabList` wrapper's `aria-label`, the CSS module styling and
  the demo `content` array of `App`. Titles are an arbitrary sequence of strings and panel
  contents are not modelled.
- Duplicate or colliding titles are not excluded by the model, as the component does not
  exclude them either. `TabView.IdsUniqueIffCollisionFree` states exactly when ids are
  unique.
- JavaScript numbers are doubles. Indices are modelled as unbounded integers, which agree
  with doubles for any realistic number of tabs.
- Key strings are compared exactly. Locale-specific key names are not modelled because
  the handler does not look at them.

=== FILE: arith.dfy ===
/**
 Facts about Euclidean remainder used by the wrap-around proofs of the arrow keys.
 */
module ModArith {

  /** Stepping forward with an explicit wrap is the successor modulo `n`. */
  lemma WrapForward(a: int, n: nat)
    ensures 0 <= a < n ==> (if a + 1 == n then 0 else a + 1) == (a + 1) % n
  {
    if 0 <= a < n {
      if a + 1 == n {
        ModUnique(a + 1, 1, 0, n);
      } else {
        ModUnique(a + 1, 0, a + 1, n);
      }
    }
  }

  /** Stepping back with an explicit wrap is the predecessor modulo `n`. */
  lemma WrapBack(a: int, n: nat)
    ensures 0 <= a < n ==> (if a == 0 then n - 1 else a - 1) == (a - 1 + n) % n
  {
    if 0 <= a < n {
      if a == 0 {
        ModUnique(n - 1, 0, n - 1, n);
      } else {
        ModUnique(a - 1 + n, 1, a - 1, n);
      }
    }
  }

  /** One step forward and then `c - 1` more reach the same remainder as `c` steps:
      `((a + 1) mod n + (c - 1)) mod n == (a + c) mod n`. */
  lemma ModStepForward(a: int, c: nat, n: nat)
    requires n >= 1 && c >= 1
    ensures ((a + 1) % n + (c - 1)) % n == (a + c) % n
  {
    var q := (a + 1) / n;
    assert a + 1 == q * n + (a + 1) % n;
    assert a + c == ((a + 1) % n + (c - 1)) + q * n;
    ModShift((a + 1) % n + (c - 1), q, n);
  }

  /** One step back and then `c - 1` more reach the same remainder as `c` steps back:
      `((a - 1 + n) mod n - (c - 1)) mod n == (a - c) mod n`. */
  lemma ModStepBack(a: int, c: nat, n: nat)
    requires n >= 1 && c >= 1
    ensures ((a - 1 + n) % n - (c - 1)) % n == (a - c) % n
  {
    var q := (a - 1 + n) / n;
    assert a - 1 + n == q * n + (a - 1 + n) % n;
    assert a - c == ((a - 1 + n) % n - (c - 1)) + (q - 1) * n;
    ModShift((a - 1 + n) % n - (c - 1), q - 1, n);
  }

  /** A nonzero multiple of `n` is at least `n` away from zero. */
  lemma MulBound(d: int, n: int)
    requires n >= 1
    ensures d >= 1 ==> d * n >= n
    ensures d <= -1 ==> d * n <= -n
  {
    if d >= 1 {
      assert d * n == n + (d - 1) * n;
    } else if d <= -1 {
      assert d * n == -n + (d + 1) * n;
    }
  }

  /** The remainder is the unique `r` in `[0, n)` with `x == a * n + r`. */
  lemma ModUnique(x: int, a: int, r: int, n: int)
    requires n >= 1 && 0 <= r < n && x == a * n + r
    ensures x % n == r
  {
    var q := x / n;
    assert x == q * n + x % n;
    assert (a - q) * n == x % n - r;
    MulBound(a - q, n);
  }

  /** Adding a multiple of `n` does not change the remainder. */
  lemma ModShift(x: int, q: int, n: nat)
    requires n >= 1
    ensures (x + q * n) % n == x % n
  {
    var p := x / n;
    assert x == p * n + x % n;
    assert x + q * n == (p + q) * n + x % n;
    ModUnique(x + q * n, p + q, x % n, n);
  }
}

=== FILE: controller.dfy ===
/**
 The state machine of the `Tabs` component: one integer `activeTab`, starting at 0,
 changed by the tab list's `onKeyDown` handler and by a click on a tab. The number of
 tabs `n` is `content.length`; nothing in the handler guards against `n == 0`.
 */
module TabController {
  import opened Keys
  import opened ModArith

  /** The index the component starts with on mount. */
  const Initial: int := 0

  predicate InRange(active: int, n: nat) {
    0 <= active < n
  }

  /** What one event does: the new `activeTab` and whether the handler called
      `preventDefault` on the event. */
  datatype Transition = Transition(active: int, preventDefault: bool)

  /** The tab list's `onKeyDown` handler. `active` is the current `activeTab` and `n` the
      number of tabs; the arithmetic is the handler's, with no modulus and no guard. */
  function OnKeyDown(key: Key, active: int, n: nat): (r: Transition)
    ensures r.preventDefault <==> Handled(key)
    ensures !Handled(key) ==> r.active == active
    ensures n >= 1 && (InRange(active, n) || key.Home? || key.End?) ==> InRange(r.active, n)
    ensures InRange(active, n) && key.ArrowRight? ==> r.active == (active + 1) % n
    ensures InRange(active, n) && key.ArrowLeft? ==> r.active == (active - 1 + n) % n
  {
    match key
    case ArrowRight =>
      WrapForward(active, n);
      Transition(if active + 1 == n then 0 else active + 1, true)
    case ArrowLeft =>
      WrapBack(active, n);
      Transition(if active == 0 then n - 1 else active - 1, true)
    case Home => Transition(0, true)
    case End => Transition(n - 1, true)
    case Other(_) => Transition(active, false)
  }

  /** The events the component reacts to: a key pressed while focus is in the tab list,
      and a click on the tab rendered at `index`. */
  datatype Event = KeyDown(key: Key) | Click(index: int)

  /** A click can only land on a tab that was rendered, so its index is in range. */
  predicate ValidEvent(e: Event, n: nat) {
    e.Click? ==> InRange(e.index, n)
  }

  predicate ValidEvents(events: seq<Event>, n: nat) {
    forall k :: 0 <= k < |events| ==> ValidEvent(events[k], n)
  }

  /** One event. A click calls `setActiveTab(index)` and never `preventDefault`. */
  function Apply(e: Event, active: int, n: nat): (r: Transition)
    ensures e.Click? ==> !r.preventDefault
    ensures n >= 1 && ValidEvent(e, n) && InRange(active, n) ==> InRange(r.active, n)
  {
    match e
    case KeyDown(key) => OnKeyDown(key, active, n)
    case Click(index) => Transition(index, false)
  }

  /** `activeTab` after the events, in order, starting from `active`. */
  function RunFrom(active: int, events: seq<Event>, n: nat): (final: int)
    decreases |events|
  {
    if |events| == 0 then active
    else RunFrom(Apply(events[0], active, n).active, events[1..], n)
  }

  /** `activeTab` after the events, starting from the mounted state. */
  function Run(events: seq<Event>, n: nat): (final: int) {
    RunFrom(Initial, events, n)
  }

  // ---------------------------------------------------------------------------------
  // Properties of the keys

  /** Home and End do not look at the current index. */
  lemma HomeEndIgnoreCurrent(a: int, b: int, n: nat)
    ensures OnKeyDown(Home, a, n) == OnKeyDown(Home, b, n) == Transition(0, true)
    ensures OnKeyDown(End, a, n) == OnKeyDown(End, b, n) == Transition(n - 1, true)
  {
  }

  /** ArrowLeft undoes ArrowRight and ArrowRight undoes ArrowLeft on every in-range
      index, so each is a bijection of the tab indices. */
  lemma ArrowKeysAreInverse(active: int, n: nat)
    requires InRange(active, n)
    ensures OnKeyDown(ArrowLeft, OnKeyDown(ArrowRight, active, n).active, n).active == active
    ensures OnKeyDown(ArrowRight, OnKeyDown(ArrowLeft, active, n).active, n).active == active
  {
  }

  /** `activeTab` after `count` presses of `key` from `active`. */
  function Presses(key: Key, count: nat, active: int, n: nat): (final: int)
    decreases count
  {
    if count == 0 then active
    else Presses(key, count - 1, OnKeyDown(key, active, n).active, n)
  }

  /** Pressing ArrowRight `count` times from `active` lands on `(active + count) mod n`:
      the strip is a cycle, and every tab is reached from every other by ArrowRight. */
  lemma {:induction false} ArrowRightPressesCycle(count: nat, active: int, n: nat)
    requires InRange(active, n)
    ensures Presses(ArrowRight, count, active, n) == (active + count) % n
    decreases count
  {
    if count > 0 {
      var next := OnKeyDown(ArrowRight, active, n).active;
      ArrowRightPressesCycle(count - 1, next, n);
      ModStepForward(active, count, n);
    }
  }

  /** Pressing ArrowLeft `count` times from `active` lands on `(active - count) mod n`. */
  lemma {:induction false} ArrowLeftPressesCycle(count: nat, active: int, n: nat)
    requires InRange(active, n)
    ensures Presses(ArrowLeft, count, active, n) == (active - count) % n
    decreases count
  {
    if count > 0 {
      var next := OnKeyDown(ArrowLeft, active, n).active;
      ArrowLeftPressesCycle(count - 1, next, n);
      ModStepBack(active, count, n);
    }
  }

  // ---------------------------------------------------------------------------------
  // Clicks and the reachable states

  /** A click activates the clicked tab whatever the previous state, and clicking the
      tab that is already active changes nothing. */
  lemma ClickActivates(index: int, a: int, b: int, n: nat)
    ensures Apply(Click(index), a, n).active == Apply(Click(index), b, n).active == index
    ensures Apply(Click(a), a, n).active == a
  {
  }

  /** With at least one tab, every sequence of events that can occur keeps `activeTab` a
      valid tab index, from any valid start. */
  lemma {:induction false} RunFromStaysInRange(active: int, events: seq<Event>, n: nat)
    requires n >= 1 && InRange(active, n) && ValidEvents(events, n)
    ensures InRange(RunFrom(active, events, n), n)
    decreases |events|
  {
    if |events| > 0 {
      assert ValidEvent(events[0], n);
      var next := Apply(events[0], active, n).active;
      assert ValidEvents(events[1..], n) by {
        forall k | 0 <= k < |events[1..]|
          ensures ValidEvent(events[1..][k], n)
        {
          assert events[1..][k] == events[k + 1];
        }
      }
      RunFromStaysInRange(next, events[1..], n);
    }
  }

  /** The invariant `0 <= activeTab < n` holds in every state reachable from mount. */
  lemma RunStaysInRange(events: seq<Event>, n: nat)
    requires n >= 1 && ValidEvents(events, n)
    ensures InRange(Run(events, n), n)
  {
    RunFromStaysInRange(Initial, events, n);
  }

  /** `count` presses of one key are the run of `count` key-down events of that key. */
  lemma {:induction false} PressesIsRun(key: Key, count: nat, active: int, n: nat)
    ensures Presses(key, count, active, n) == RunFrom(active, seq(count, _ => KeyDown(key)), n)
    decreases count
  {
    if count > 0 {
      var events := seq(count, _ => KeyDown(key));
      assert events[0] == KeyDown(key);
      assert events[1..] == seq(count - 1, _ => KeyDown(key));
      PressesIsRun(key, count - 1, OnKeyDown(key, active, n).active, n);
    }
  }

  /** Every tab index is reachable from mount: `target` ArrowRight presses reach it. */
  lemma EveryTabReachable(target: int, n: nat)
    requires InRange(target, n)
    ensures Run(seq(target, _ => KeyDown(ArrowRight)), n) == target
    ensures Presses(ArrowRight, target, Initial, n) == target
  {
    ArrowRightPressesCycle(target, Initial, n);
    PressesIsRun(ArrowRight, target, Initial, n);
  }

  /** Without any tab the handler leaves the index range: ArrowRight from 0 gives 1 and
      End gives -1, which is why the range results above need `n >= 1`. */
  lemma EmptyGroupEscapesRange()
    ensures OnKeyDown(ArrowRight, Initial, 0).active == 1
    ensures OnKeyDown(End, Initial, 0).active == -1
    ensures !InRange(Initial, 0)
  {
  }
}

=== FILE: focus.dfy ===
/**
 The focus side effect of the `Tab` component. Each tab runs an effect after a commit in
 which its `selected` flag differs from the previous commit (and once on mount); the effect
 focuses the button when it is now selected. The DOM and the commit timing are abstracted:
 a commit is described by the previous active index, or by `Mount`.
 */
module Focus {
  import opened TabController

  /** What preceded a commit: the first render, or a render with `previous` active. */
  datatype Commit = Mount | Update(previous: int)

  /** Tab `i`'s effect runs after the commit: on mount, or when its `selected` flag
      (`activeTab === i`) changed. */
  predicate EffectRuns(c: Commit, active: int, i: int) {
    c.Mount? || (c.previous == i) != (active == i)
  }

  /** Between two renders the effect re-runs on exactly the tabs whose `selected` flag
      changed: none when the active index stayed, otherwise the tab that was active and the
      tab that became active (those of them that are rendered). */
  lemma EffectRunsOnChangedTabs(previous: int, active: int, n: nat)
    ensures (set i | 0 <= i < n && EffectRuns(Update(previous), active, i)) ==
      if previous == active then {}
      else (set i | i in {previous, active} && InRange(i, n))
  {
  }

  /** The tabs the commit's effects focus, among the `n` rendered ones. */
  function FocusTargets(c: Commit, active: int, n: nat): (targets: set<int>)
    ensures forall i :: i in targets ==> InRange(i, n)
  {
    set i | 0 <= i < n && EffectRuns(c, active, i) && active == i
  }

  /** Focus moves to the active tab exactly when it became active in this commit (or on
      mount) and is a rendered tab; otherwise no tab is focused by the effects. */
  lemma FocusFollowsActivation(c: Commit, active: int, n: nat)
    ensures FocusTargets(c, active, n) ==
      if InRange(active, n) && (c.Mount? || c.previous != active) then {active} else {}
  {
  }

  /** After any event from a valid state, the effects focus the new active tab if the event
      changed `activeTab` and nothing otherwise; in particular clicking the active tab, or a
      key the handler ignores, moves no focus. */
  lemma EventFocus(e: Event, active: int, n: nat)
    requires n >= 1 && InRange(active, n) && ValidEvent(e, n)
    ensures var next := Apply(e, active, n).active;
      FocusTargets(Update(active), next, n) == if next != active then {next} else {}
  {
  }
}

=== FILE: keys.dfy ===
/**
 Keyboard intents of the tab list. The `onKeyDown` handler of `Tabs` switches on the
 event's `key` string; this module classifies that string into the four keys the handler
 acts on and everything else.
 */
module Keys {

  /** A keyboard key as the tab list's `onKeyDown` handler sees it. `Other` keeps the
      `key` string of every key the handler does not act on. */
  datatype Key = ArrowRight | ArrowLeft | Home | End | Other(name: string)

  /** The `key` strings the handler has a `case` for. */
  const HandledNames: set<string> := {"ArrowRight", "ArrowLeft", "Home", "End"}

  /** True for the four keys that the handler acts on (and whose default it prevents). */
  predicate Handled(k: Key) {
    !k.Other?
  }

  /** A key value that a real event can produce: an `Other` never carries one of the
      handled names, since such a string is classified as the handled key. */
  predicate WellFormed(k: Key) {
    k.Other? ==> k.name !in HandledNames
  }

  /** The `key` string of an event carrying key `k`. */
  function NameOf(k: Key): (name: string)
    ensures WellFormed(k) ==> (Handled(k) <==> name in HandledNames)
    ensures k.Other? ==> name == k.name
  {
    match k
    case ArrowRight => "ArrowRight"
    case ArrowLeft => "ArrowLeft"
    case Home => "Home"
    case End => "End"
    case Other(s) => s
  }

  /** Classifies an event's `key` string exactly as the `switch (e.key)` does: string
      equality against the four case labels, everything else falls to `default`. */
  function KeyOf(name: string): (k: Key)
    ensures WellFormed(k)
    ensures Handled(k) <==> name in HandledNames
    ensures NameOf(k) == name
  {
    if name == "ArrowRight" then ArrowRight
    else if name == "ArrowLeft" then ArrowLeft
    else if name == "Home" then Home
    else if name == "End" then End
    else Other(name)
  }

  /** Classification loses nothing: every well-formed key is recovered from its name. */
  lemma KeyOfNameOf(k: Key)
    requires WellFormed(k)
    ensures KeyOf(NameOf(k)) == k
  {
  }
}

=== FILE: view.dfy ===
/**
 The attributes `Tabs` renders for the current `activeTab`: one `Tab` button and one
 `TabPanel` region per item, in item order. Ids are the item's title used verbatim; the
 panel's id appends the fixed suffix "-tab".
 */
module TabView {

  /** A JSX attribute value; `Absent` is a value of `undefined`, which React leaves out of
      the rendered element. */
  datatype Attr<T> = Absent | Present(value: T)

  /** The attributes of one `Tab` button. `tabIndex == Absent` keeps the button in the
      sequential focus order; `Present(-1)` takes it out (the roving tab index). */
  datatype TabAttrs = TabAttrs(
    role: string,
    buttonType: string,
    id: string,
    ariaSelected: bool,
    ariaControls: string,
    tabIndex: Attr<int>)

  /** The attributes of one `TabPanel` region. */
  datatype PanelAttrs = PanelAttrs(
    role: string,
    id: string,
    ariaLabelledBy: string,
    hidden: bool,
    tabIndex: int)

  /** The suffix that turns a title into its panel's id. */
  const PanelSuffix: string := "-tab"

  /** The id of the panel belonging to the tab with id `title`. */
  function PanelId(title: string): (id: string) {
    title + PanelSuffix
  }

  /** The `Tab` component's attributes for a tab with the given title: a button with role
      "tab" whose id is the title, selected and in the sequential focus order exactly when
      `selected`, and otherwise carrying `tabIndex` -1; its `aria-controls` names the panel
      of the same title, which names it back. */
  function TabOf(title: string, selected: bool): (t: TabAttrs)
    ensures t.role == "tab" && t.buttonType == "button" && t.id == title
    ensures t.ariaSelected == selected
    ensures InTabOrder(t) <==> selected
    ensures !selected ==> t.tabIndex == Present(-1)
    ensures forall s: bool ::
      t.ariaControls == PanelOf(title, s).id && PanelOf(title, s).ariaLabelledBy == t.id
  {
    TabAttrs("tab", "button", title, selected, PanelId(title),
             if selected then Absent else Present(-1))
  }

  /** The `TabPanel` component's attributes for a panel with the given title: role
      "tabpanel", id the title with the panel suffix, labelled by the tab of that title,
      visible exactly when `selected`. Every panel carries `tabIndex` 0, but `hidden`
      takes a panel out of the focus order, so it is a tab stop exactly when `selected`. */
  function PanelOf(title: string, selected: bool): (p: PanelAttrs)
    ensures p.role == "tabpanel" && p.id == PanelId(title) && p.ariaLabelledBy == title
    ensures Visible(p) <==> selected
    ensures p.tabIndex == 0
    ensures PanelTabStop(p) <==> selected
  {
    PanelAttrs("tabpanel", PanelId(title), title, !selected, 0)
  }

  /** The tab buttons, one per title, the one at `active` selected. */
  function RenderTabs(titles: seq<string>, active: int): (tabs: seq<TabAttrs>)
    ensures |tabs| == |titles|
  {
    seq(|titles|, i requires 0 <= i < |titles| => TabOf(titles[i], active == i))
  }

  /** The panels, one per title, all but the one at `active` hidden. */
  function RenderPanels(titles: seq<string>, active: int): (panels: seq<PanelAttrs>)
    ensures |panels| == |titles|
  {
    seq(|titles|, i requires 0 <= i < |titles| => PanelOf(titles[i], active == i))
  }

  // ---------------------------------------------------------------------------------
  // Exactly one active tab and panel

  /** The tabs a keyboard user reaches by sequential (Tab-key) navigation. */
  predicate InTabOrder(t: TabAttrs) {
    t.tabIndex.Absent?
  }

  predicate Visible(p: PanelAttrs) {
    !p.hidden
  }

  /** The panels a keyboard user reaches by sequential navigation: a non-negative
      `tabIndex` makes a panel focusable, but a `hidden` panel is not rendered and so is
      skipped. */
  predicate PanelTabStop(p: PanelAttrs) {
    Visible(p) && p.tabIndex >= 0
  }

  /** For every index, the tab is selected iff it is in the tab order iff its panel is
      visible iff the index is the active one. */
  lemma ActiveIndexAgrees(titles: seq<string>, active: int)
    ensures forall i :: 0 <= i < |titles| ==>
      && (RenderTabs(titles, active)[i].ariaSelected <==> i == active)
      && (InTabOrder(RenderTabs(titles, active)[i]) <==> i == active)
      && (Visible(RenderPanels(titles, active)[i]) <==> i == active)
  {
  }

  /** The number of elements of `s` satisfying `p`. */
  function CountIf<T>(s: seq<T>, p: T -> bool): (c: nat)
    ensures c <= |s|
    decreases |s|
  {
    if |s| == 0 then 0
    else (if p(s[0]) then 1 else 0) + CountIf(s[1..], p)
  }

  /** No element satisfies `p`, so the count is zero. */
  lemma {:induction false} CountIfNone<T>(s: seq<T>, p: T -> bool)
    requires forall i :: 0 <= i < |s| ==> !p(s[i])
    ensures CountIf(s, p) == 0
    decreases |s|
  {
    if |s| > 0 {
      assert !p(s[0]);
      assert forall i :: 0 <= i < |s[1..]| ==> s[1..][i] == s[i + 1];
      CountIfNone(s[1..], p);
    }
  }

  /** Exactly the element at `k` satisfies `p`, so the count is one. */
  lemma {:induction false} CountIfUnique<T>(s: seq<T>, p: T -> bool, k: int)
    requires 0 <= k < |s|
    requires forall i :: 0 <= i < |s| ==> (p(s[i]) <==> i == k)
    ensures CountIf(s, p) == 1
    decreases |s|
  {
    assert forall i :: 0 <= i < |s[1..]| ==> s[1..][i] == s[i + 1];
    if k == 0 {
      CountIfNone(s[1..], p);
    } else {
      assert !p(s[0]);
      CountIfUnique(s[1..], p, k - 1);
    }
  }

  /** With the active index in range, exactly one tab is in the tab order, exactly one tab
      is selected and exactly one panel is visible; out of range, none is. */
  lemma {:induction false} ExactlyOneActive(titles: seq<string>, active: int)
    ensures 0 <= active < |titles| ==>
      && CountIf(RenderTabs(titles, active), InTabOrder) == 1
      && CountIf(RenderTabs(titles, active), (t: TabAttrs) => t.ariaSelected) == 1
      && CountIf(RenderPanels(titles, active), Visible) == 1
    ensures !(0 <= active < |titles|) ==>
      && CountIf(RenderTabs(titles, active), InTabOrder) == 0
      && CountIf(RenderTabs(titles, active), (t: TabAttrs) => t.ariaSelected) == 0
      && CountIf(RenderPanels(titles, active), Visible) == 0
  {
    var tabs, panels := RenderTabs(titles, active), RenderPanels(titles, active);
    ActiveIndexAgrees(titles, active);
    if 0 <= active < |titles| {
      CountIfUnique(tabs, InTabOrder, active);
      CountIfUnique(tabs, (t: TabAttrs) => t.ariaSelected, active);
      CountIfUnique(panels, Visible, active);
    } else {
      CountIfNone(tabs, InTabOrder);
      CountIfNone(tabs, (t: TabAttrs) => t.ariaSelected);
      CountIfNone(panels, Visible);
    }
  }

  /** Only the visible panel is a tab stop: with the active index in range exactly one
      panel is, and out of range none is. Sequential navigation from the active tab thus
      enters its own panel and skips the hidden ones. */
  lemma {:induction false} OneTabStopPanel(titles: seq<string>, active: int)
    ensures 0 <= active < |titles| ==>
      && CountIf(RenderPanels(titles, active), PanelTabStop) == 1
      && PanelTabStop(RenderPanels(titles, active)[active])
    ensures !(0 <= active < |titles|) ==> CountIf(RenderPanels(titles, active), PanelTabStop) == 0
  {
    var panels := RenderPanels(titles, active);
    assert forall i :: 0 <= i < |panels| ==> (PanelTabStop(panels[i]) <==> i == active);
    if 0 <= active < |titles| {
      CountIfUnique(panels, PanelTabStop, active);
    } else {
      CountIfNone(panels, PanelTabStop);
    }
  }

  // ---------------------------------------------------------------------------------
  // Cross-references between a tab and its panel

  /** Each tab's `aria-controls` is its own panel's id and each panel's `aria-labelledby`
      is its own tab's id, whichever tab is active. */
  lemma TabAndPanelReferenceEachOther(titles: seq<string>, active: int, i: int)
    requires 0 <= i < |titles|
    ensures RenderTabs(titles, active)[i].ariaControls == RenderPanels(titles, active)[i].id
    ensures RenderPanels(titles, active)[i].ariaLabelledBy == RenderTabs(titles, active)[i].id
  {
  }

  /** No two elements of `s` are equal. */
  predicate NoDuplicates<T(==)>(s: seq<T>) {
    forall i, j :: 0 <= i < j < |s| ==> s[i] != s[j]
  }

  /** Every id in the rendered group: the tab ids, then the panel ids. */
  function AllIds(titles: seq<string>, active: int): (ids: seq<string>)
    ensures |ids| == 2 * |titles|
  {
    seq(|titles|, i requires 0 <= i < |titles| => RenderTabs(titles, active)[i].id)
    + seq(|titles|, i requires 0 <= i < |titles| => RenderPanels(titles, active)[i].id)
  }

  /** The condition on titles under which the verbatim id scheme yields distinct ids:
      titles are pairwise distinct, and no title is another title followed by "-tab". */
  predicate CollisionFree(titles: seq<string>) {
    && NoDuplicates(titles)
    && forall i, j :: 0 <= i < |titles| && 0 <= j < |titles| ==> titles[i] != PanelId(titles[j])
  }

  /** Two ids carrying the panel suffix are equal only if the titles are. */
  lemma PanelIdInjective(a: string, b: string)
    ensures PanelId(a) == PanelId(b) ==> a == b
  {
    if PanelId(a) == PanelId(b) {
      assert |a| == |b|;
      assert a == PanelId(a)[..|a|] == PanelId(b)[..|b|] == b;
    }
  }

  /** Where each title's two ids sit in `AllIds`. */
  lemma AllIdsAt(titles: seq<string>, active: int, i: int)
    requires 0 <= i < |titles|
    ensures AllIds(titles, active)[i] == titles[i]
    ensures AllIds(titles, active)[|titles| + i] == PanelId(titles[i])
  {
  }

  /** Two tab ids differ: they are distinct titles. */
  lemma TabIdsDiffer(titles: seq<string>, active: int, i: int, j: int)
    requires CollisionFree(titles) && 0 <= i < j < |titles|
    ensures AllIds(titles, active)[i] != AllIds(titles, active)[j]
  {
    AllIdsAt(titles, active, i);
    AllIdsAt(titles, active, j);
  }

  /** A tab id and a panel id differ: no title is another title followed by "-tab". */
  lemma TabPanelIdsDiffer(titles: seq<string>, active: int, i: int, j: int)
    requires CollisionFree(titles) && 0 <= i < |titles| && 0 <= j < |titles|
    ensures AllIds(titles, active)[i] != AllIds(titles, active)[|titles| + j]
  {
    AllIdsAt(titles, active, i);
    AllIdsAt(titles, active, j);
  }

  /** Two panel ids differ: the suffix is appended to distinct titles. */
  lemma PanelIdsDiffer(titles: seq<string>, active: int, i: int, j: int)
    requires CollisionFree(titles) && 0 <= i < j < |titles|
    ensures AllIds(titles, active)[|titles| + i] != AllIds(titles, active)[|titles| + j]
  {
    AllIdsAt(titles, active, i);
    AllIdsAt(titles, active, j);
    PanelIdInjective(titles[i], titles[j]);
  }

  /** Collision-free titles give pairwise distinct ids. */
  lemma CollisionFreeIdsUnique(titles: seq<string>, active: int)
    requires CollisionFree(titles)
    ensures NoDuplicates(AllIds(titles, active))
  {
    var n, ids := |titles|, AllIds(titles, active);
    forall i, j | 0 <= i < j < |ids|
      ensures ids[i] != ids[j]
    {
      if j < n {
        TabIdsDiffer(titles, active, i, j);
      } else if i < n {
        TabPanelIdsDiffer(titles, active, i, j - n);
      } else {
        PanelIdsDiffer(titles, active, i - n, j - n);
      }
    }
  }

  /** Pairwise distinct ids force collision-free titles. */
  lemma UniqueIdsCollisionFree(titles: seq<string>, active: int)
    requires NoDuplicates(AllIds(titles, active))
    ensures CollisionFree(titles)
  {
    var n, ids := |titles|, AllIds(titles, active);
    forall i, j | 0 <= i < j < n
      ensures titles[i] != titles[j]
    {
      AllIdsAt(titles, active, i);
      AllIdsAt(titles, active, j);
    }
    forall i, j | 0 <= i < n && 0 <= j < n
      ensures titles[i] != PanelId(titles[j])
    {
      AllIdsAt(titles, active, i);
      AllIdsAt(titles, active, j);
    }
  }

  /** The rendered ids are all distinct exactly when the titles are collision-free. The
      component does not check this; distinct titles alone are not enough. */
  lemma IdsUniqueIffCollisionFree(titles: seq<string>, active: int)
    ensures NoDuplicates(AllIds(titles, active)) <==> CollisionFree(titles)
  {
    if CollisionFree(titles) {
      CollisionFreeIdsUnique(titles, active);
    }
    if NoDuplicates(AllIds(titles, active)) {
      UniqueIdsCollisionFree(titles, active);
    }
  }

  // ---------------------------------------------------------------------------------
  // Resolving the ID-reference lists

  /** ASCII whitespace: the separator of an ID-reference list attribute such as
      `aria-labelledby` or `aria-controls`. */
  predicate IsSpace(c: char) {
    c == ' ' || c == '\t' || c == '\n' || c == '\U{000C}' || c == '\r'
  }

  predicate NoSpace(s: string) {
    forall k :: 0 <= k < |s| ==> !IsSpace(s[k])
  }

  /** A string that is one id reference on its own: non-empty, without whitespace. */
  predicate SingleToken(s: string) {
    s != [] && NoSpace(s)
  }

  /** The token collected so far, if any. */
  function Flush(cur: string): (refs: seq<string>)
    requires NoSpace(cur)
    ensures forall k :: 0 <= k < |refs| ==> SingleToken(refs[k])
    ensures |refs| <= 1
  {
    if cur == [] then [] else [cur]
  }

  /** The tokens of `s`, the first one continuing the partial token `cur`. */
  function TokensFrom(s: string, cur: string): (refs: seq<string>)
    requires NoSpace(cur)
    ensures forall k :: 0 <= k < |refs| ==> SingleToken(refs[k])
    decreases |s|
  {
    if |s| == 0 then Flush(cur)
    else if IsSpace(s[0]) then Flush(cur) + TokensFrom(s[1..], [])
    else TokensFrom(s[1..], cur + [s[0]])
  }

  /** The ids an ID-reference list attribute names: its whitespace-separated tokens, in
      order. */
  function IdRefs(s: string): (refs: seq<string>)
    ensures forall k :: 0 <= k < |refs| ==> SingleToken(refs[k])
  {
    TokensFrom(s, [])
  }

  /** The tokens written one after another. */
  function Concat(refs: seq<string>): (s: string)
    decreases |refs|
  {
    if |refs| == 0 then [] else refs[0] + Concat(refs[1..])
  }

  /** `s` with every whitespace character removed. */
  function StripSpace(s: string): (r: string)
    ensures NoSpace(r) && |r| <= |s|
    decreases |s|
  {
    if |s| == 0 then []
    else if IsSpace(s[0]) then StripSpace(s[1..])
    else [s[0]] + StripSpace(s[1..])
  }

  lemma {:induction false} ConcatAppend(a: seq<string>, b: seq<string>)
    ensures Concat(a + b) == Concat(a) + Concat(b)
    decreases |a|
  {
    if |a| == 0 {
      assert a + b == b;
    } else {
      assert (a + b)[0] == a[0] && (a + b)[1..] == a[1..] + b;
      ConcatAppend(a[1..], b);
    }
  }

  /** Tokenising loses nothing but whitespace: the tokens of `s`, after the partial token
      `cur`, spell `cur` followed by `s` without its whitespace. */
  lemma {:induction false} TokensFromSpell(s: string, cur: string)
    requires NoSpace(cur)
    ensures Concat(TokensFrom(s, cur)) == cur + StripSpace(s)
    decreases |s|
  {
    if |s| == 0 {
      assert Concat(Flush(cur)) == cur + [] by {
        if cur != [] { assert Concat([cur]) == cur + Concat([]); }
      }
    } else if IsSpace(s[0]) {
      ConcatAppend(Flush(cur), TokensFrom(s[1..], []));
      TokensFromSpell(s[1..], []);
      assert Concat(Flush(cur)) == cur by {
        if cur != [] { assert Concat([cur]) == cur + Concat([]); }
      }
    } else {
      assert NoSpace(cur + [s[0]]) by {
        forall k | 0 <= k < |cur + [s[0]]| ensures !IsSpace((cur + [s[0]])[k]) {
          if k < |cur| { assert (cur + [s[0]])[k] == cur[k]; }
        }
      }
      TokensFromSpell(s[1..], cur + [s[0]]);
      assert cur + [s[0]] + StripSpace(s[1..]) == cur + ([s[0]] + StripSpace(s[1..]));
    }
  }

  /** The ids a reference list names, written one after another, are the list with its
      whitespace removed. */
  lemma IdRefsSpell(s: string)
    ensures Concat(IdRefs(s)) == StripSpace(s)
  {
    TokensFromSpell(s, []);
    assert [] + StripSpace(s) == StripSpace(s);
  }

  /** A string without whitespace extends the partial token and ends it. */
  lemma {:induction false} TokensFromNoSpace(s: string, cur: string)
    requires NoSpace(cur) && NoSpace(s)
    ensures TokensFrom(s, cur) == Flush(cur + s)
    decreases |s|
  {
    if |s| > 0 {
      assert !IsSpace(s[0]);
      assert NoSpace(s[1..]) by {
        forall k | 0 <= k < |s[1..]| ensures !IsSpace(s[1..][k]) {
          assert s[1..][k] == s[k + 1];
        }
      }
      TokensFromNoSpace(s[1..], cur + [s[0]]);
      assert cur + [s[0]] + s[1..] == cur + s by {
        assert s == [s[0]] + s[1..];
      }
    } else {
      assert cur + s == cur;
    }
  }

  /** A single token, used as a reference list, names exactly itself. */
  lemma IdRefsOfToken(s: string)
    requires SingleToken(s)
    ensures IdRefs(s) == [s]
  {
    TokensFromNoSpace(s, []);
    assert [] + s == s;
  }

  /** Appending the panel suffix keeps a title a single token. */
  lemma PanelIdIsToken(title: string)
    requires SingleToken(title)
    ensures SingleToken(PanelId(title))
  {
    var id := PanelId(title);
    forall k | 0 <= k < |id| ensures !IsSpace(id[k]) {
      if k < |title| {
        assert id[k] == title[k];
      } else {
        assert id[k] == PanelSuffix[k - |title|];
      }
    }
  }

  /** Every title is a single token, so the verbatim ids are valid reference tokens. */
  predicate TokenTitles(titles: seq<string>) {
    forall k :: 0 <= k < |titles| ==> SingleToken(titles[k])
  }

  /** With collision-free single-token titles, each reference list resolves to exactly its
      partner: panel `i`'s `aria-labelledby` is the one token naming tab `i` and no other
      tab or panel, and tab `i`'s `aria-controls` is the one token naming panel `i` and no
      other panel or tab. */
  lemma ReferencesResolveUniquely(titles: seq<string>, active: int, i: int)
    requires CollisionFree(titles) && TokenTitles(titles) && 0 <= i < |titles|
    ensures IdRefs(RenderPanels(titles, active)[i].ariaLabelledBy) == [RenderTabs(titles, active)[i].id]
    ensures IdRefs(RenderTabs(titles, active)[i].ariaControls) == [RenderPanels(titles, active)[i].id]
    ensures forall j :: 0 <= j < |titles| ==>
      && (RenderTabs(titles, active)[j].id in IdRefs(RenderPanels(titles, active)[i].ariaLabelledBy) <==> j == i)
      && RenderPanels(titles, active)[j].id !in IdRefs(RenderPanels(titles, active)[i].ariaLabelledBy)
    ensures forall j :: 0 <= j < |titles| ==>
      && (RenderPanels(titles, active)[j].id in IdRefs(RenderTabs(titles, active)[i].ariaControls) <==> j == i)
      && RenderTabs(titles, active)[j].id !in IdRefs(RenderTabs(titles, active)[i].ariaControls)
  {
    IdRefsOfToken(titles[i]);
    PanelIdIsToken(titles[i]);
    IdRefsOfToken(PanelId(titles[i]));
    forall j | 0 <= j < |titles|
      ensures PanelId(titles[j]) == PanelId(titles[i]) ==> j == i
    {
      PanelIdInjective(titles[j], titles[i]);
    }
  }

  /** A run of non-whitespace characters extends the partial token. */
  lemma {:induction false} TokensFromPrefix(s: string, rest: string, cur: string)
    requires NoSpace(cur) && NoSpace(s)
    ensures NoSpace(cur + s)
    ensures TokensFrom(s + rest, cur) == TokensFrom(rest, cur + s)
    decreases |s|
  {
    if |s| == 0 {
      assert s + rest == rest && cur + s == cur;
    } else {
      assert !IsSpace(s[0]);
      assert NoSpace(s[1..]) by {
        forall k | 0 <= k < |s[1..]| ensures !IsSpace(s[1..][k]) {
          assert s[1..][k] == s[k + 1];
        }
      }
      assert (s + rest)[0] == s[0] && (s + rest)[1..] == s[1..] + rest;
      TokensFromPrefix(s[1..], rest, cur + [s[0]]);
      assert cur + [s[0]] + s[1..] == cur + s by {
        assert s == [s[0]] + s[1..];
      }
    }
  }

  /** Two words joined by a space name two ids, the words themselves, and not the whole
      string. */
  lemma SpacedWordsNameTwoIds(a: string, b: string)
    requires SingleToken(a) && SingleToken(b)
    ensures IdRefs(a + " " + b) == [a, b]
    ensures a + " " + b !in IdRefs(a + " " + b)
  {
    TokensFromPrefix(a, " " + b, []);
    assert a + " " + b == a + (" " + b);
    assert [] + a == a;
    assert (" " + b)[0] == ' ' && (" " + b)[1..] == b;
    TokensFromNoSpace(b, []);
    assert [] + b == b;
    assert |a + " " + b| > |a| && |a + " " + b| > |b|;
  }

  /** Titles with whitespace break the references although they are collision-free: with
      titles "a b" and "a", panel 0's `aria-labelledby` names the ids "a" and "b", so it
      points at tab 1 and not at its own tab 0. */
  lemma SpacedTitlesMisresolve()
    ensures CollisionFree(["a b", "a"])
    ensures IdRefs(RenderPanels(["a b", "a"], 0)[0].ariaLabelledBy) == ["a", "b"]
    ensures RenderTabs(["a b", "a"], 0)[1].id in IdRefs(RenderPanels(["a b", "a"], 0)[0].ariaLabelledBy)
    ensures RenderTabs(["a b", "a"], 0)[0].id !in IdRefs(RenderPanels(["a b", "a"], 0)[0].ariaLabelledBy)
  {
    SpacedWordsNameTwoIds("a", "b");
    assert "a" + " " + "b" == "a b";
  }

  /** The two-word demo titles "Nils Frahm" and "Agnes Obel" each name two ids, neither of
      which is the title. */
  lemma DemoTitlesNameTwoIds()
    ensures IdRefs("Nils Frahm") == ["Nils", "Frahm"]
    ensures IdRefs("Agnes Obel") == ["Agnes", "Obel"]
  {
    SpacedWordsNameTwoIds("Nils", "Frahm");
    assert "Nils" + " " + "Frahm" == "Nils Frahm";
    SpacedWordsNameTwoIds("Agnes", "Obel");
    assert "Agnes" + " " + "Obel" == "Agnes Obel";
  }

  /** The demo's titles. */
  const DemoTitles: seq<string> := ["Nils Frahm", "Agnes Obel", "Joke"]

  /** In the demo, the panels of "Nils Frahm" and "Agnes Obel" are labelled by no tab:
      their `aria-labelledby` names none of the three tab ids. */
  lemma DemoPanelsLabelledByNoTab(active: int)
    ensures forall i, j :: 0 <= i < 2 && 0 <= j < 3 ==>
      RenderTabs(DemoTitles, active)[j].id !in IdRefs(RenderPanels(DemoTitles, active)[i].ariaLabelledBy)
  {
    DemoTitlesNameTwoIds();
    var tabs, panels := RenderTabs(DemoTitles, active), RenderPanels(DemoTitles, active);
    forall i, j | 0 <= i < 2 && 0 <= j < 3
      ensures tabs[j].id !in IdRefs(panels[i].ariaLabelledBy)
    {
      assert tabs[j].id == DemoTitles[j] && panels[i].ariaLabelledBy == DemoTitles[i];
      assert DemoTitles[j] !in ["Nils", "Frahm"] && DemoTitles[j] !in ["Agnes", "Obel"];
    }
  }

  /** Distinct titles can still collide: "a" and "a-tab" give a tab and a panel the same
      id, so panel 0's id also names tab 1. */
  lemma DistinctTitlesCanCollide()
    ensures NoDuplicates(["a", "a-tab"]) && !CollisionFree(["a", "a-tab"])
    ensures RenderTabs(["a", "a-tab"], 0)[1].id == RenderPanels(["a", "a-tab"], 0)[0].id
  {
    var titles := ["a", "a-tab"];
    assert PanelId(titles[0]) == titles[1];
  }
}

=== FILE: widget.dfy ===
/**
 The `Tabs` component as a whole: the controller's state, rendered through the tab and
 panel attributes, over any sequence of events from mount.
 */
module Widget {
  import opened Keys
  import opened TabController
  import opened TabView

  /** In every state reachable from mount, the rendered group has exactly one tab in the
      tab order, one selected tab, one visible panel and one panel tab stop, all at the
      active index. */
  lemma ReachableStatesShowOneTab(titles: seq<string>, events: seq<Event>)
    requires |titles| >= 1 && ValidEvents(events, |titles|)
    ensures var active := Run(events, |titles|);
      && InRange(active, |titles|)
      && CountIf(RenderTabs(titles, active), InTabOrder) == 1
      && CountIf(RenderTabs(titles, active), (t: TabAttrs) => t.ariaSelected) == 1
      && CountIf(RenderPanels(titles, active), Visible) == 1
      && CountIf(RenderPanels(titles, active), PanelTabStop) == 1
      && InTabOrder(RenderTabs(titles, active)[active])
      && RenderTabs(titles, active)[active].ariaSelected
      && Visible(RenderPanels(titles, active)[active])
  {
    var active := Run(events, |titles|);
    RunStaysInRange(events, |titles|);
    ExactlyOneActive(titles, active);
    OneTabStopPanel(titles, active);
  }

  /** The four-tab walk-through: End from the start selects the last tab and shows only its
      panel, ArrowRight there wraps to the first, Home from the third returns to the first,
      ArrowLeft from the first wraps to the last, and a click on the third tab selects it. */
  lemma FourTabScenario()
    ensures var titles := ["Tab A", "Tab B", "Tab C", "Tab D"];
      && Run([KeyDown(End)], 4) == 3
      && RenderTabs(titles, 3)[3].id == "Tab D"
      && (forall i :: 0 <= i < 4 ==> (Visible(RenderPanels(titles, 3)[i]) <==> i == 3))
      && Run([KeyDown(End), KeyDown(ArrowRight)], 4) == 0
      && Run([KeyDown(End), KeyDown(ArrowLeft), KeyDown(Home)], 4) == 0
      && Run([KeyDown(ArrowLeft)], 4) == 3
      && Run([KeyDown(ArrowRight), Click(2)], 4) == 2
  {
  }
}
